=== FILE: README.md ===
# YouSeeMe IP tracker: provider selection and retry, in Dafny

This project models the control logic of `you_see_me.py`, a command-line tool that
looks up geolocation data for an IP address. At startup it probes a fixed list of
geo-IP providers. Each probe is a single GET, and a provider is kept only if it
answers with status 200. Then, for each IP the user types, the tool tries the
reachable providers in list order. It asks each one for `<base URL><ip>` up to
`MAX_RETRY_ATTEMPTS = 3` times and stops at the first provider whose parsed
answer is truthy.

The network is replaced by oracles:

- `Net.ProbeOracle` (`string -> Outcome`) gives the outcome of the probe GET on a base URL.
- `Net.Responder` (`(target, attemptIndex) -> Outcome`) gives the outcome of each data GET.

An `Outcome` is `Response(status, body)`, `ClientError` (a connection failure, DNS
error and the like) or `TimedOut`. Every operation also returns a log of the GETs it
issued (`Net.Request(target, attempt)`). That log is what lets the contracts state
attempt counts, request targets and short-circuiting.

Modules (one per component of the program):

- `Net`: outcomes, parsed bodies, the request log, and Python truthiness of `ip_data`.
- `Prober`: `check_api_access`, `test_api_urls` and the `API_URLS` constant.
- `Fetcher`: `fetch_ip_data` with its 3-attempt retry loop.
- `Resolver`: the provider loop of `main` and the present/absent branch of `print_ip_data`.
- `Console`: `input().strip()`, the case-insensitive `exit`, and rejection of empty input. Trimming is written for any class of characters (`Console.CharClass`); the program's class is Python's `str.isspace` (`Console.IsSpace`).
- `Session`: `main` as a whole. It probes once, stops if nothing is reachable, and
  otherwise handles the input lines until `exit` or the end of input.

Two loops, the provider loop and the input loop, are written over a function parameter
(`Resolver.ProviderLoop` takes the per-provider fetch, `Session.Serve` takes the
per-line handler). The program's own instance is built in `Resolver.QueryProviders`
and `Session.Run`. `Session.Run` takes the provider list as a parameter; the program
passes `Prober.ApiUrls`.

Points where the code is easy to misread, and which the model follows as written:

- The provider loop stops at the first *truthy* result (`if ip_data:`), not the first
  non-absent one. A 200 answer with an empty object `{}` ends that provider's retries
  but not the provider loop. When no provider is truthy, `ip_data` keeps the *last*
  provider's value (`Resolver.AllFalsyTriesEveryProvider`). That value is `None` when the
  list is empty or the last provider exhausted its budget
  (`Resolver.AllFailingCostsFullBudget`), and `{}` when the last provider answered 200
  with an empty object.
- Probing is sequential (`for url in API_URLS: await ...`), not concurrent.
- The code does not catch the `EOFError` that `input()` raises at the end of input,
  so the program stops with an uncaught exception.
  The model ends such a session with `InputExhausted`.

One observation about the data: `API_URLS` holds `https://api.ipgeolocation.io/ipgeo`
with no trailing slash. Because the IP is concatenated with no separator
(`Fetcher.RequestTarget`), the request for that provider is `.../ipgeo8.8.8.8`
(`Session.IpgeoTargetHasNoSeparator`). For every other provider the IP becomes its own
path segment.

## Model

| member | source | states |
|---|---|---|
| `Prober.CheckApiAccess` | you_see_me.py:76-92 | a probe counts as reachable exactly when it is an HTTP response with status 200 (`Net.IsOk`), whatever its body; any other status, a client error or a timeout gives false |
| `Prober.TestApiUrls` | you_see_me.py:155-174 | every URL of the list is probed exactly once, in order, with no retry; no more URLs are kept than were listed, and every kept URL is a listed one whose probe succeeded |
| `Prober.AccessibleIsOrderedFilter` | you_see_me.py:162-174 | the reachable list is the order-preserving subsequence taken at exactly the positions whose probe returned true, duplicates included (witnessed by a strictly increasing index list) |
| `Prober.AccessibleMembership` | you_see_me.py:162-174 | the reachable list contains only listed URLs whose probe succeeded, and every listed URL whose probe succeeded |
| `Prober.ProbeNoneReachable` | you_see_me.py:162-174 | if no probe succeeds the reachable list is empty |
| `Prober.ProbeAllReachable` | you_see_me.py:162-174 | if every probe succeeds the reachable list is the whole input list, in order |
| `Prober.AccessibleKeepsDistinct` | you_see_me.py:162-174 | probing a list in which no URL repeats gives a reachable list in which no URL repeats |
| `Prober.ProbingApiUrls` | you_see_me.py:60-68 | the built-in list names seven different providers, so probing it probes exactly those seven and keeps at most seven, none twice |
| `Fetcher.RequestTarget` | you_see_me.py:112 | a data request targets the base URL immediately followed by the IP: no separator, no encoding |
| `Fetcher.FetchLoop` | you_see_me.py:109-129 | from `retry_count` spent attempts, the requests are consecutive attempt indices on the one target within the budget; every attempt but the last failed; the result is the last attempt's body if it returned 200, and otherwise `None` once the whole budget is spent with no 200 |
| `Fetcher.FetchIpData` | you_see_me.py:98-129 | a fresh call makes 1 to 3 requests, numbered 0, 1, 2, all to `url + ip`; it returns data exactly when some attempt below 3 answers 200 |
| `Fetcher.FetchExhaustsBudget` | you_see_me.py:109-129 | when every attempt is a non-200 status, client error or timeout, exactly `MAX_RETRY_ATTEMPTS` requests are made and the result is `None` |
| `Fetcher.FetchStopsAtFirstOk` | you_see_me.py:110-114 | if attempt k < 3 is the first 200, that attempt's body is returned and exactly k + 1 requests are made |
| `Fetcher.FetchDependsOnlyOnOwnAttempts` | you_see_me.py:109-127 | a fetch depends on the network only through attempts 0..2 on its own target |
| `Resolver.ProviderLoop` | you_see_me.py:216-220 | at most one fetch per provider; the loop's value is the last provider's value, or the incoming value when no provider is left |
| `Resolver.ProviderLoopTriesInOrder` | you_see_me.py:217-220 | the providers tried are a prefix of the list, in order, each with its own call; all but the last gave a falsy result, and the loop stops early only on a truthy one |
| `Resolver.ProviderLoopTruthy` | you_see_me.py:216-220 | starting from `None`, the loop ends on a truthy value iff some provider's own call is truthy |
| `Resolver.QueryProviders` | you_see_me.py:216-220 | each tried provider gets a fresh `fetch_ip_data` budget; the answer is truthy iff some provider's own fetch is truthy; with no truthy result every provider is tried; an empty list gives `None` and no request |
| `Resolver.FirstTruthyWins` | you_see_me.py:217-220 | if provider k is the first with a truthy result, the answer is its result and exactly k + 1 providers are tried |
| `Resolver.AllFalsyTriesEveryProvider` | you_see_me.py:216-220 | when no provider is truthy, all are tried and the answer is the last provider's own falsy value |
| `Resolver.RequestsAtMost` | you_see_me.py:109-110 | if each provider tried issued at most `bound` requests, the query issued at most `bound` times the number of providers tried |
| `Resolver.RequestsExactly` | you_see_me.py:109-110 | if each provider tried issued exactly `bound` requests, the query issued exactly `bound` times the number of providers tried |
| `Resolver.QueryRequestBound` | you_see_me.py:109-110 | one query issues at most `MAX_RETRY_ATTEMPTS` requests per reachable provider |
| `Resolver.AllFailingCostsFullBudget` | you_see_me.py:109-129 | when every attempt on every provider fails, the answer is `None` after exactly 3 requests per provider |
| `Resolver.RequestsTargetProviders` | you_see_me.py:217-218 | every data request of a query targets some reachable provider's base URL followed by the IP |
| `Resolver.FallbackToSecondProvider` | you_see_me.py:216-220 | a first provider that never answers 200 spends 3 attempts; a second provider that answers 200 with a non-empty body on its first attempt is then the answer, after one request |
| `Net.Truthy` | you_see_me.py:219 | Python truthiness of a fetch result, the test of `if ip_data:` and of `if values:` (line 138): `None` and the empty object `{}` are false, a non-empty object is true |
| `Resolver.PrintIpData` | you_see_me.py:138-152 | the data branch is taken iff the value is truthy (not `None`, not `{}`), and it shows that value; otherwise "No data found" is shown |
| `Resolver.ReportShowsAnySuccess` | you_see_me.py:216-222 | a query shows data iff some reachable provider produced a non-empty object |
| `Console.Strip` | you_see_me.py:207 | `str.strip()` never lengthens the line, and gives the empty string iff the line is whitespace only |
| `Console.TrimStart` | you_see_me.py:207 | the result is a suffix of the line; everything dropped is in the trimmed class; the result is empty or starts outside the class |
| `Console.TrimEnd` | you_see_me.py:207 | the result is a prefix of the line; everything dropped is in the trimmed class; the result is empty or ends outside the class |
| `Console.StripWith` | you_see_me.py:207 | the stripped line is no longer than the line and neither starts nor ends with a character of the class |
| `Console.StripIsSlice` | you_see_me.py:207 | the stripped line is one contiguous slice of the line |
| `Console.StripCutsLead` | you_see_me.py:207 | everything cut away before the slice is whitespace |
| `Console.StripCutsTail` | you_see_me.py:207 | everything cut away after the slice is whitespace |
| `Console.StripEmptyIffWithin` | you_see_me.py:207-211 | a line strips to the empty string iff it is whitespace only |
| `Console.StripIdempotent` | you_see_me.py:207 | stripping twice equals stripping once |
| `Console.StripIgnoresPadding` | you_see_me.py:207 | adding any whitespace before and after a line does not change its stripped form |
| `Console.IsSpace` | you_see_me.py:207 | the class `strip()` removes: space, tab, newline and carriage return are in it; ASCII letters, digits, `.` and `:` (the characters of an IP address) are not; nothing above U+3000 is |
| `Console.LowerChar` | you_see_me.py:208 | an upper-case ASCII letter becomes the lower-case letter at the same place in the alphabet; no other character changes; no upper-case ASCII letter is left |
| `Console.Lower` | you_see_me.py:208 | lowering keeps the length, turns each upper-case ASCII letter into its lower-case partner, changes nothing else, and leaves no upper-case ASCII letter |
| `Console.IsExitWord` | you_see_me.py:208 | `lower() == "exit"` holds iff the string has four letters, each one of e/E, x/X, i/I, t/T in turn |
| `Console.Classify` | you_see_me.py:207-213 | a line quits iff its stripped form is the exit word; it is rejected iff it is whitespace only; otherwise it is queried with its stripped, non-empty text, which is not the exit word |
| `Console.ClassifyIgnoresPadding` | you_see_me.py:207-213 | surrounding whitespace never changes how a line is classified |
| `Session.HandleLine` | you_see_me.py:207-222 | the exit word stops; a blank line is rejected with no request; any other line shows the query's report and sends exactly the query's requests (the fetches of the providers tried, in order), at most 3 × providers of them, each targeting a reachable provider followed by the stripped line |
| `Session.Serve` | you_see_me.py:206-213 | at most one event per line; the input runs out without a stop iff no line stops the loop |
| `Session.StopIgnoresLaterLines` | you_see_me.py:206-209 | lines after the first stopping line are never read, and each earlier line produced one event |
| `Session.EveryLineAnswered` | you_see_me.py:206-222 | with no stopping line, line i produces event i |
| `Session.DialogueRequestsFromLines` | you_see_me.py:215-218 | every request of the input loop was issued while answering one of its lines |
| `Session.LineRequestsInDialogue` | you_see_me.py:215-218 | with no exit line, every request issued while answering any line goes out in the input loop |
| `Session.Run` | you_see_me.py:200-222 | the list is probed exactly once; the reachable list is the whole result of probing, in order; the session ends at once with "no accessible API URLs" and no data request iff no probe succeeded; otherwise the input lines are served against that reachable list |
| `Session.ExitEndsSession` | you_see_me.py:207-209 | in a run, the first line that strips to a case-insensitive `exit` ends the session, and later lines change nothing |
| `Session.BlankLinesRejected` | you_see_me.py:200-222 | in a run without `exit`, each line gets one event: the invalid-input message iff the line is whitespace only, and otherwise the report of querying the whole reachable list with the stripped line |
| `Session.RunRequestTargets` | you_see_me.py:217-218 | every data request of a run targets a reachable provider followed by the stripped text of one of the query lines |
| `Session.IpgeoTargetHasNoSeparator` | you_see_me.py:65 | the ipgeolocation entry has no trailing slash, so its request for 8.8.8.8 is `https://api.ipgeolocation.io/ipgeo8.8.8.8` |
| `Session.AlwaysServerErrorShowsNoData` | you_see_me.py:109-129 | one provider that always answers 500 gets exactly 3 requests, and "No data found" is shown |
| `Session.FirstAnswerIsShown` | you_see_me.py:113-114 | one provider answering 200 with `{"ip": "8.8.8.8", "city": "Mountain View"}` gets one request, and that object is shown |

## Left out

- Dependency check and `pip install` via `subprocess` (you_see_me.py:22-57): environment bootstrapping and a foreign process call.
- `clear_screen`, colorama colouring and the banner (you_see_me.py:71-73, 179-197): terminal presentation only.
- The printed field layout of `print_ip_data` (you_see_me.py:139-150): only the present/absent branch is modelled.
- The warning and status lines printed by the probe, the retry loop and `main`: output only, with no effect on control flow.
- aiohttp sessions, `async`/`await`, real timeouts and connection reuse: each GET is one oracle outcome. A timeout is one more failure kind.
- JSON parsing of a 200 body: the body is an already-parsed object whose values are strings, integers, booleans or null. Fractional numbers (a latitude, say) and nested objects or arrays as field values are not represented. A body that does not parse can end the program with an exception the code does not catch. A body that parses to something other than an object (a list, say) is not representable either.
- The body of a non-200 response is carried by `Response` but never read, as in the code.
- A 200 whose body the data fetch cannot read: aiohttp's `json()` raises `ContentTypeError` on a non-JSON content type, a subclass of `aiohttp.ClientError`, so the code catches it and retries (you_see_me.py:114, 119), while the probe still counts that 200 as reachable. The data oracle must report such an attempt as `ClientError`; the model does not derive it from a status and a content type. An empty 200 body, for which `json()` gives `None` and the retries end, is modelled as `{}`; both are falsy, so the provider loop moves on either way.
- `KeyboardInterrupt` handling (you_see_me.py:226-229) and the blocking `input()` call: the input is a finite sequence of lines. End of input ends the model's session (`InputExhausted`), where the code raises an uncaught `EOFError`.
- Console.Lower, Console.LowerChar: lower ASCII letters only and keep the length; Python's `str.lower()` also lowers other scripts. That does not change the `exit` test. No non-ASCII character lowercases to exactly one of the letters e, x, i or t. U+0130 lowercases to two characters, `i` and a combining dot.
- The oracles are deterministic functions of target and attempt index. Asking the same provider again for the same IP later in the session gets the same outcomes. Real network variation between queries is not modelled.

=== FILE: console.dfy ===
/**
 Classification of one line typed at the prompt: the line is stripped, a
 case-insensitive `exit` ends the session, an empty line is rejected, and
 anything else is the IP to look up, unvalidated.
 */
module Console {

  /**
   The characters Python's `str.isspace` accepts, which `str.strip()` removes:
   tab to carriage return, the four information separators, space, NEL,
   no-break space, ogham space mark, the en quad to hair space block, the
   line and paragraph separators, narrow no-break space, medium mathematical
   space and ideographic space.
   */
  function IsSpace(c: char): (b: bool)
    ensures c == ' ' || c == '\t' || c == '\n' || c == '\r' ==> b
    ensures ('0' <= c <= '9' || 'a' <= c <= 'z' || 'A' <= c <= 'Z' || c == '.' || c == ':') ==> !b
    ensures b ==> c as int <= 0x3000
  {
    c in SpaceChars
  }

  const SpaceChars: set<char> := {
    '\t', '\n', '\U{B}', '\U{C}', '\r', '\U{1C}', '\U{1D}', '\U{1E}', '\U{1F}', ' ',
    '\U{85}', '\U{A0}', '\U{1680}',
    '\U{2000}', '\U{2001}', '\U{2002}', '\U{2003}', '\U{2004}', '\U{2005}',
    '\U{2006}', '\U{2007}', '\U{2008}', '\U{2009}', '\U{200A}',
    '\U{2028}', '\U{2029}', '\U{202F}', '\U{205F}', '\U{3000}'
  }

  /**
   A set of characters to trim. The trimming functions and their lemmas hold
   for any such class; the program uses `IsSpace`.
   */
  type CharClass = char -> bool

  /** Every character of `s` is in the class `ws`. */
  ghost predicate Within(ws: CharClass, s: string) {
    forall i :: 0 <= i < |s| ==> ws(s[i])
  }

  /** The line is whitespace only, in Python's sense. */
  ghost predicate AllSpace(s: string) {
    Within(IsSpace, s)
  }

  /** Drops leading `ws` characters: the result is the suffix of `s` that starts at its first character outside `ws`. */
  function TrimStart(ws: CharClass, s: string): (r: string)
    ensures |r| <= |s|
    ensures r == s[|s| - |r|..]
    ensures forall i :: 0 <= i < |s| - |r| ==> ws(s[i])
    ensures r == [] || !ws(r[0])
    decreases |s|
  {
    if s != [] && ws(s[0]) then TrimStart(ws, s[1..]) else s
  }

  /** Drops trailing `ws` characters: the result is the prefix of `s` that ends at its last character outside `ws`. */
  function TrimEnd(ws: CharClass, s: string): (r: string)
    ensures |r| <= |s|
    ensures r == s[..|r|]
    ensures forall i :: |r| <= i < |s| ==> ws(s[i])
    ensures r == [] || !ws(r[|r| - 1])
    decreases |s|
  {
    if s != [] && ws(s[|s| - 1]) then TrimEnd(ws, s[..|s| - 1]) else s
  }

  /** Both ends trimmed; the result neither starts nor ends with a `ws` character. */
  function StripWith(ws: CharClass, s: string): (r: string)
    ensures |r| <= |s|
    ensures r == [] || (!ws(r[0]) && !ws(r[|r| - 1]))
  {
    TrimEnd(ws, TrimStart(ws, s))
  }

  /** `str.strip()` with no argument: Python's whitespace trimmed from both ends. */
  function Strip(s: string): (r: string)
    ensures |r| <= |s|
    ensures r == [] <==> AllSpace(s)
  {
    StripEmptyIffWithin(IsSpace, s);
    StripWith(IsSpace, s)
  }

  /** How many leading characters stripping removes. */
  function Lead(ws: CharClass, s: string): (n: nat)
    ensures n <= |s|
  {
    |s| - |TrimStart(ws, s)|
  }

  /** The stripped string is a contiguous slice of the input, starting after the leading class characters. */
  lemma StripIsSlice(ws: CharClass, s: string)
    ensures Lead(ws, s) + |StripWith(ws, s)| <= |s|
    ensures StripWith(ws, s) == s[Lead(ws, s)..Lead(ws, s) + |StripWith(ws, s)|]
  {
    var t := TrimStart(ws, s);
    var r := TrimEnd(ws, t);
    assert t == s[Lead(ws, s)..];
    assert r == t[..|r|];
  }

  /** Everything cut away before the slice is in the class. */
  lemma StripCutsLead(ws: CharClass, s: string)
    ensures Within(ws, s[..Lead(ws, s)])
  {
    var lead := Lead(ws, s);
    forall i | 0 <= i < lead
      ensures ws(s[..lead][i])
    {
      assert s[..lead][i] == s[i];
    }
  }

  /** Everything cut away after the slice is in the class. */
  lemma StripCutsTail(ws: CharClass, s: string)
    ensures Lead(ws, s) + |StripWith(ws, s)| <= |s|
    ensures Within(ws, s[Lead(ws, s) + |StripWith(ws, s)|..])
  {
    var t := TrimStart(ws, s);
    var r := TrimEnd(ws, t);
    var lead := |s| - |t|;
    var tail := s[lead + |r|..];
    forall i | 0 <= i < |tail|
      ensures ws(tail[i])
    {
      assert tail[i] == s[lead + |r| + i];
      assert t[|r| + i] == s[lead + |r| + i];
    }
  }

  /** A string strips to the empty string exactly when all of it is in the class. */
  lemma StripEmptyIffWithin(ws: CharClass, s: string)
    ensures StripWith(ws, s) == [] <==> Within(ws, s)
  {
    var lead := Lead(ws, s);
    if StripWith(ws, s) == [] {
      StripCutsLead(ws, s);
      forall i | 0 <= i < |s|
        ensures ws(s[i])
      {
        assert s[..lead][i] == s[i];
      }
    } else {
      var r := StripWith(ws, s);
      StripIsSlice(ws, s);
      assert r[0] == s[lead];
    }
  }

  /** Stripping twice is stripping once. */
  lemma StripIdempotent(ws: CharClass, s: string)
    ensures StripWith(ws, StripWith(ws, s)) == StripWith(ws, s)
  {
    var r := StripWith(ws, s);
    assert TrimStart(ws, r) == r;
    assert TrimEnd(ws, r) == r;
  }

  /** ASCII upper-case letters lowered; every other character is kept. */
  function LowerChar(c: char): (l: char)
    ensures 'A' <= c <= 'Z' ==> l as int == c as int + ('a' as int - 'A' as int)
    ensures !('A' <= l <= 'Z')
    ensures l != c ==> 'A' <= c <= 'Z'
    ensures 'a' <= l <= 'z' <==> ('a' <= c <= 'z' || 'A' <= c <= 'Z')
  {
    if 'A' <= c <= 'Z' then (c as int + 32) as char else c
  }

  /** `str.lower()` on ASCII: same length, no upper-case ASCII letter left, only upper-case letters changed. */
  function Lower(s: string): (l: string)
    ensures |l| == |s|
    ensures forall i :: 0 <= i < |s| && 'A' <= s[i] <= 'Z' ==> l[i] as int == s[i] as int + ('a' as int - 'A' as int)
    ensures forall i :: 0 <= i < |l| ==> !('A' <= l[i] <= 'Z')
    ensures forall i :: 0 <= i < |l| ==> l[i] == s[i] || 'A' <= s[i] <= 'Z'
  {
    seq(|s|, i requires 0 <= i < |s| => LowerChar(s[i]))
  }

  /**
   `ip.lower() == "exit"`: the exit word is matched case-insensitively and
   letter for letter.
   */
  function IsExitWord(s: string): (b: bool)
    ensures b <==>
              && |s| == 4
              && (s[0] == 'e' || s[0] == 'E')
              && (s[1] == 'x' || s[1] == 'X')
              && (s[2] == 'i' || s[2] == 'I')
              && (s[3] == 't' || s[3] == 'T')
  {
    var l := Lower(s);
    assert |s| == 4 ==> l == [l[0], l[1], l[2], l[3]];
    l == "exit"
  }

  /** What the session does with one input line. */
  datatype Command = Quit | Blank | Query(ip: string)

  /**
   Strip first, then test for the exit word, then for emptiness; a query
   carries the stripped line, never empty and never the exit word.
   */
  function Classify(line: string): (c: Command)
    ensures c.Quit? <==> IsExitWord(Strip(line))
    ensures c.Blank? <==> AllSpace(line)
    ensures c.Query? ==> c.ip == Strip(line) && c.ip != [] && !IsExitWord(c.ip)
  {
    var ip := Strip(line);
    if IsExitWord(ip) then Quit
    else if ip == [] then Blank
    else Query(ip)
  }

  /** Whitespace around a line never changes how it is classified. */
  lemma ClassifyIgnoresPadding(pre: string, line: string, post: string)
    requires AllSpace(pre) && AllSpace(post)
    ensures Classify(pre + line + post) == Classify(line)
  {
    StripIgnoresPadding(IsSpace, pre, line, post);
  }

  lemma {:induction false} TrimStartSkips(ws: CharClass, pre: string, s: string)
    requires Within(ws, pre)
    ensures TrimStart(ws, pre + s) == TrimStart(ws, s)
    decreases |pre|
  {
    if pre != [] {
      assert ws(pre[0]) && (pre + s)[0] == pre[0];
      assert (pre + s)[1..] == pre[1..] + s;
      assert Within(ws, pre[1..]) by {
        forall i | 0 <= i < |pre[1..]| ensures ws(pre[1..][i]) {
          assert pre[1..][i] == pre[i + 1];
        }
      }
      TrimStartSkips(ws, pre[1..], s);
    } else {
      assert pre + s == s;
    }
  }

  lemma {:induction false} TrimEndSkips(ws: CharClass, s: string, post: string)
    requires Within(ws, post)
    ensures TrimEnd(ws, s + post) == TrimEnd(ws, s)
    decreases |post|
  {
    if post != [] {
      var n := |post| - 1;
      assert ws(post[n]) && (s + post)[|s + post| - 1] == post[n];
      assert (s + post)[..|s + post| - 1] == s + post[..n];
      assert Within(ws, post[..n]) by {
        forall i | 0 <= i < n ensures ws(post[..n][i]) {
          assert post[..n][i] == post[i];
        }
      }
      TrimEndSkips(ws, s, post[..n]);
    } else {
      assert s + post == s;
    }
  }

  /** Leading trimming passes through a suffix when the prefix has a character outside the class. */
  lemma {:induction false} TrimStartAppend(ws: CharClass, s: string, post: string)
    requires !Within(ws, s)
    ensures TrimStart(ws, s + post) == TrimStart(ws, s) + post
    decreases |s|
  {
    if ws(s[0]) {
      assert (s + post)[1..] == s[1..] + post;
      assert !Within(ws, s[1..]) by {
        var i :| 0 <= i < |s| && !ws(s[i]);
        assert s[1..][i - 1] == s[i];
      }
      TrimStartAppend(ws, s[1..], post);
    }
  }

  lemma WithinConcat(ws: CharClass, a: string, b: string)
    requires Within(ws, a) && Within(ws, b)
    ensures Within(ws, a + b)
  {
    forall i | 0 <= i < |a + b|
      ensures ws((a + b)[i])
    {
      if i < |a| {
        assert (a + b)[i] == a[i];
      } else {
        assert (a + b)[i] == b[i - |a|];
      }
    }
  }

  /** Stripping removes any amount of surrounding class characters and nothing else. */
  lemma StripIgnoresPadding(ws: CharClass, pre: string, line: string, post: string)
    requires Within(ws, pre) && Within(ws, post)
    ensures StripWith(ws, pre + line + post) == StripWith(ws, line)
  {
    if Within(ws, line) {
      WithinConcat(ws, pre, line);
      WithinConcat(ws, pre + line, post);
      StripEmptyIffWithin(ws, line);
      StripEmptyIffWithin(ws, pre + line + post);
    } else {
      assert pre + line + post == pre + (line + post);
      TrimStartSkips(ws, pre, line + post);
      TrimStartAppend(ws, line, post);
      TrimEndSkips(ws, TrimStart(ws, line), post);
    }
  }
}

=== FILE: fetcher.dfy ===
/**
 The per-provider fetch: GET `<base URL><ip>` up to `MaxRetryAttempts` times,
 stopping at the first 200 and counting every other outcome as a spent attempt.
 */
module Fetcher {
  import opened Net

  const MaxRetryAttempts: nat := 3

  /** The data request target: base URL and IP concatenated, with no encoding or separator. */
  function RequestTarget(url: string, ip: string): (target: string)
    ensures |target| == |url| + |ip|
    ensures target[..|url|] == url && target[|url|..] == ip
  {
    url + ip
  }

  /** One call's result: the parsed body or `None`, and the requests issued, in order. */
  datatype FetchRun = FetchRun(data: Option<Body>, requests: seq<Request>)

  /**
   The retry loop entered with `retryCount` attempts already spent. The
   contract pins the result down completely: the requests are consecutive
   attempts on the one target, every attempt but the last failed, and the
   call ends either on a 200 (returning its body) or with the budget spent.
   */
  function FetchLoop(resp: Responder, url: string, ip: string, retryCount: nat): (r: FetchRun)
    requires retryCount <= MaxRetryAttempts
    ensures retryCount + |r.requests| <= MaxRetryAttempts
    ensures forall j :: 0 <= j < |r.requests| ==>
              r.requests[j] == Request(RequestTarget(url, ip), retryCount + j)
    ensures forall a :: retryCount <= a < retryCount + |r.requests| - 1 ==>
              !IsOk(resp(RequestTarget(url, ip), a))
    ensures r.data.Some? ==>
              && r.requests != []
              && IsOk(resp(RequestTarget(url, ip), retryCount + |r.requests| - 1))
              && r.data.value == resp(RequestTarget(url, ip), retryCount + |r.requests| - 1).body
    ensures r.data.None? ==>
              && retryCount + |r.requests| == MaxRetryAttempts
              && forall a :: retryCount <= a < MaxRetryAttempts ==> !IsOk(resp(RequestTarget(url, ip), a))
    decreases MaxRetryAttempts - retryCount
  {
    if retryCount == MaxRetryAttempts then FetchRun(None, [])
    else
      var target := RequestTarget(url, ip);
      var outcome := resp(target, retryCount);
      if IsOk(outcome) then FetchRun(Some(outcome.body), [Request(target, retryCount)])
      else
        var rest := FetchLoop(resp, url, ip, retryCount + 1);
        FetchRun(rest.data, [Request(target, retryCount)] + rest.requests)
  }

  /** `fetch_ip_data`: a fresh retry budget starting at attempt 0. */
  function FetchIpData(resp: Responder, url: string, ip: string): (r: FetchRun)
    ensures 1 <= |r.requests| <= MaxRetryAttempts
    ensures forall j :: 0 <= j < |r.requests| ==> r.requests[j] == Request(RequestTarget(url, ip), j)
    ensures r.data.Some? <==> exists a :: 0 <= a < MaxRetryAttempts && IsOk(resp(RequestTarget(url, ip), a))
  {
    FetchLoop(resp, url, ip, 0)
  }

  /** Every attempt failing spends exactly the whole budget and yields `None`. */
  lemma FetchExhaustsBudget(resp: Responder, url: string, ip: string)
    requires forall a :: 0 <= a < MaxRetryAttempts ==> !IsOk(resp(RequestTarget(url, ip), a))
    ensures FetchIpData(resp, url, ip).data == None
    ensures |FetchIpData(resp, url, ip).requests| == MaxRetryAttempts
  {
  }

  /** If attempt `k` is the first 200, its body is returned and nothing is requested after it. */
  lemma FetchStopsAtFirstOk(resp: Responder, url: string, ip: string, k: nat)
    requires k < MaxRetryAttempts
    requires IsOk(resp(RequestTarget(url, ip), k))
    requires forall a :: 0 <= a < k ==> !IsOk(resp(RequestTarget(url, ip), a))
    ensures FetchIpData(resp, url, ip).data == Some(resp(RequestTarget(url, ip), k).body)
    ensures |FetchIpData(resp, url, ip).requests| == k + 1
  {
  }

  /** A fetch only ever looks at the oracle for its own target and attempts below the bound. */
  lemma {:induction false} FetchDependsOnlyOnOwnAttempts(resp: Responder, resp': Responder, url: string, ip: string, retryCount: nat)
    requires retryCount <= MaxRetryAttempts
    requires forall a :: retryCount <= a < MaxRetryAttempts ==>
               resp(RequestTarget(url, ip), a) == resp'(RequestTarget(url, ip), a)
    ensures FetchLoop(resp, url, ip, retryCount) == FetchLoop(resp', url, ip, retryCount)
    decreases MaxRetryAttempts - retryCount
  {
    if retryCount < MaxRetryAttempts {
      FetchDependsOnlyOnOwnAttempts(resp, resp', url, ip, retryCount + 1);
    }
  }
}

=== FILE: net.dfy ===
/**
 The values that cross the boundary between the IP tracker and the geo-IP
 providers. The network itself is not modelled: every HTTP GET is replaced by
 an `Outcome` that an oracle supplies.
 */
module Net {

  /** A field value of a provider answer: a string, an integer, a boolean or null (fractions and nested values are not represented). */
  datatype Value = Str(s: string) | Num(n: int) | Bool(b: bool) | Null

  /** A response body already parsed as a JSON object: field name to value. */
  type Body = map<string, Value>

  datatype Option<T> = None | Some(value: T)

  /** What one GET with a timeout produced, as the client observes it. */
  datatype Outcome =
    | Response(status: int, body: Body)  // the server answered; `body` matters only on 200
    | ClientError                        // connection refused, DNS or TLS failure, ...
    | TimedOut                           // the fixed 10-unit timeout elapsed

  /**
   A response with status 200. The probe counts it as reachable whatever the
   body; the data fetch returns its body, so the data oracle reports a 200
   whose body is not JSON as a client error.
   */
  predicate IsOk(o: Outcome) {
    o.Response? && o.status == 200
  }

  /** The probe oracle: the outcome of the single GET on a base URL. */
  type ProbeOracle = string -> Outcome

  /** The data oracle: the outcome of the GET on `target` at the given attempt index. */
  type Responder = (string, nat) -> Outcome

  /** One data GET as issued: its full target and its attempt index within the retry loop. */
  datatype Request = Request(target: string, attempt: nat)

  /** Python truthiness of the value held in `ip_data`: `None` and an empty object are false. */
  function Truthy(d: Option<Body>): (b: bool)
    ensures d == None ==> !b
    ensures d == Some(map[]) ==> !b
    ensures d.Some? && d.value != map[] ==> b
  {
    d.Some? && |d.value| > 0
  }
}

=== FILE: prober.dfy ===
/**
 The reachability prober: one GET per provider base URL, no retry, and the
 ordered list of the providers that answered 200.
 */
module Prober {
  import opened Net

  /** The static provider list, in preference order. */
  const ApiUrls: seq<string> := [
    "https://api.ipdata.co/",
    "https://ipinfo.io/",
    "https://ipapi.co/",
    "https://freegeoip.app/json/",
    "https://api.ipgeolocation.io/ipgeo",
    "https://extreme-ip-lookup.com/json/",
    "https://ipwhois.app/json/"
  ]

  /** Classifies the outcome of one probe: reachable only on status 200, whatever the body. */
  function CheckApiAccess(o: Outcome): (accessible: bool)
    ensures accessible == IsOk(o)
    ensures accessible ==> o.Response?
    ensures o.Response? ==> (accessible <==> o.status == 200)
    ensures o.ClientError? || o.TimedOut? ==> !accessible
  {
    match o
    case Response(status, _) => status == 200
    case ClientError => false
    case TimedOut => false
  }

  /** The result of the probing pass: the reachable URLs and every URL probed, in order. */
  datatype ProbeRun = ProbeRun(accessible: seq<string>, probed: seq<string>)

  /** Probes `urls` one after the other, keeping those whose probe succeeded. */
  function TestApiUrls(urls: seq<string>, probe: ProbeOracle): (r: ProbeRun)
    ensures r.probed == urls
    ensures |r.accessible| <= |urls|
    ensures forall j :: 0 <= j < |r.accessible| ==>
              r.accessible[j] in urls && CheckApiAccess(probe(r.accessible[j]))
    decreases |urls|
  {
    if urls == [] then ProbeRun([], [])
    else
      var rest := TestApiUrls(urls[1..], probe);
      var keep := if CheckApiAccess(probe(urls[0])) then [urls[0]] else [];
      assert forall u :: u in urls[1..] ==> u in urls;
      ProbeRun(keep + rest.accessible, [urls[0]] + rest.probed)
  }

  /** `idx` lists, strictly increasing, the positions in `urls` that `sub` was taken from. */
  ghost predicate SelectsInOrder(sub: seq<string>, urls: seq<string>, idx: seq<nat>)
  {
    && |idx| == |sub|
    && (forall j :: 0 <= j < |idx| ==> idx[j] < |urls| && sub[j] == urls[idx[j]])
    && (forall j, k :: 0 <= j < k < |idx| ==> idx[j] < idx[k])
  }

  /** Adds one to every position: the positions of a suffix seen from the whole sequence. */
  function Shift(idx: seq<nat>): (shifted: seq<nat>)
    ensures forall j :: 0 <= j < |shifted| ==> shifted[j] >= 1
  {
    seq(|idx|, j requires 0 <= j < |idx| => idx[j] + 1)
  }

  /** The positions of a suffix, seen from the whole sequence, optionally preceded by position 0. */
  lemma ShiftMembership(idx: seq<nat>, keepFirst: bool, i: nat)
    ensures var all := if keepFirst then [0] + Shift(idx) else Shift(idx);
      i in all <==> (i == 0 && keepFirst) || (1 <= i && i - 1 in idx)
  {
    var shifted := Shift(idx);
    if i in shifted {
      var j :| 0 <= j < |shifted| && shifted[j] == i;
      assert idx[j] == i - 1;
    }
    if 1 <= i && i - 1 in idx {
      var j :| 0 <= j < |idx| && idx[j] == i - 1;
      assert shifted[j] == i;
    }
  }

  /** Selecting `sub` from `urls[1..]` is selecting it, shifted, from `urls`. */
  lemma ShiftSelects(sub: seq<string>, urls: seq<string>, idx: seq<nat>)
    requires urls != []
    requires SelectsInOrder(sub, urls[1..], idx)
    ensures SelectsInOrder(sub, urls, Shift(idx))
  {
    var shifted := Shift(idx);
    forall j | 0 <= j < |idx|
      ensures shifted[j] < |urls| && sub[j] == urls[shifted[j]]
    {
      assert urls[1..][idx[j]] == urls[shifted[j]];
    }
  }

  /** Position 0 may be put in front of any selection from `urls`. */
  lemma PrependSelects(sub: seq<string>, urls: seq<string>, idx: seq<nat>)
    requires urls != []
    requires SelectsInOrder(sub, urls, idx)
    requires forall j :: 0 <= j < |idx| ==> 0 < idx[j]
    ensures SelectsInOrder([urls[0]] + sub, urls, [0] + idx)
  {
    var both := [0] + idx;
    var sub' := [urls[0]] + sub;
    assert forall j :: 1 <= j < |both| ==> both[j] == idx[j - 1] && sub'[j] == sub[j - 1];
  }

  /** The positions selected from `urls[1..]`, shifted, plus position 0 when its probe succeeded. */
  lemma ExtendPositions(urls: seq<string>, probe: ProbeOracle, tail: seq<nat>)
    requires urls != []
    requires forall i :: 0 <= i < |urls| - 1 ==> (i in tail <==> CheckApiAccess(probe(urls[1..][i])))
    ensures var idx := if CheckApiAccess(probe(urls[0])) then [0] + Shift(tail) else Shift(tail);
      forall i :: 0 <= i < |urls| ==> (i in idx <==> CheckApiAccess(probe(urls[i])))
  {
    forall i | 0 <= i < |urls|
      ensures var idx := if CheckApiAccess(probe(urls[0])) then [0] + Shift(tail) else Shift(tail);
        i in idx <==> CheckApiAccess(probe(urls[i]))
    {
      ShiftMembership(tail, CheckApiAccess(probe(urls[0])), i);
      if i > 0 {
        assert urls[1..][i - 1] == urls[i];
      }
    }
  }

  /**
   The reachable list is the order-preserving subsequence of `urls` made of
   exactly the positions whose probe succeeded (duplicates included).
   */
  lemma {:induction false} AccessibleIsOrderedFilter(urls: seq<string>, probe: ProbeOracle)
    returns (idx: seq<nat>)
    ensures SelectsInOrder(TestApiUrls(urls, probe).accessible, urls, idx)
    ensures forall i :: 0 <= i < |urls| ==> (i in idx <==> CheckApiAccess(probe(urls[i])))
    decreases |urls|
  {
    if urls == [] {
      idx := [];
    } else {
      var tail := AccessibleIsOrderedFilter(urls[1..], probe);
      var rest := TestApiUrls(urls[1..], probe).accessible;
      var shifted := Shift(tail);
      idx := if CheckApiAccess(probe(urls[0])) then [0] + shifted else shifted;
      assert SelectsInOrder(TestApiUrls(urls, probe).accessible, urls, idx) by {
        ShiftSelects(rest, urls, tail);
        if CheckApiAccess(probe(urls[0])) {
          PrependSelects(rest, urls, shifted);
        }
      }
      ExtendPositions(urls, probe, tail);
    }
  }

  /**
   A URL is kept exactly when it is listed and its probe succeeded. (For a
   URL listed twice, one successful probe is enough.)
   */
  lemma AccessibleMembership(urls: seq<string>, probe: ProbeOracle)
    ensures forall u :: u in TestApiUrls(urls, probe).accessible ==> u in urls && CheckApiAccess(probe(u))
    ensures forall u :: u in urls && CheckApiAccess(probe(u)) ==> u in TestApiUrls(urls, probe).accessible
  {
    var a := TestApiUrls(urls, probe).accessible;
    var idx := AccessibleIsOrderedFilter(urls, probe);
    forall u | u in a
      ensures u in urls && CheckApiAccess(probe(u))
    {
      var j :| 0 <= j < |a| && a[j] == u;
      assert idx[j] in idx;
    }
    forall u | u in urls && CheckApiAccess(probe(u))
      ensures u in a
    {
      var i :| 0 <= i < |urls| && urls[i] == u;
      assert i in idx;
      var j :| 0 <= j < |idx| && idx[j] == i;
      assert a[j] == u;
    }
  }

  /** No URL occurs twice in the sequence. */
  ghost predicate Distinct(urls: seq<string>) {
    forall j, k :: 0 <= j < k < |urls| ==> urls[j] != urls[k]
  }

  /** Probing a list without repeats gives a reachable list without repeats. */
  lemma AccessibleKeepsDistinct(urls: seq<string>, probe: ProbeOracle)
    requires Distinct(urls)
    ensures Distinct(TestApiUrls(urls, probe).accessible)
  {
    var idx := AccessibleIsOrderedFilter(urls, probe);
    var a := TestApiUrls(urls, probe).accessible;
    forall j, k | 0 <= j < k < |a|
      ensures a[j] != a[k]
    {
      assert idx[j] < idx[k];
    }
  }

  /** The built-in list names seven different providers, so its reachable list never names one twice. */
  lemma ProbingApiUrls(probe: ProbeOracle)
    ensures Distinct(ApiUrls)
    ensures TestApiUrls(ApiUrls, probe).probed == ApiUrls
    ensures |TestApiUrls(ApiUrls, probe).accessible| <= 7
    ensures Distinct(TestApiUrls(ApiUrls, probe).accessible)
  {
    assert Distinct(ApiUrls) by {
      forall j, k | 0 <= j < k < |ApiUrls|
        ensures ApiUrls[j] != ApiUrls[k]
      {
        assert |ApiUrls[j]| != |ApiUrls[k]|;
      }
    }
    AccessibleKeepsDistinct(ApiUrls, probe);
  }

  /** When no probe succeeds the reachable list is empty. */
  lemma ProbeNoneReachable(urls: seq<string>, probe: ProbeOracle)
    requires forall i :: 0 <= i < |urls| ==> !CheckApiAccess(probe(urls[i]))
    ensures TestApiUrls(urls, probe).accessible == []
  {
    var idx := AccessibleIsOrderedFilter(urls, probe);
  }

  /** When every probe succeeds the reachable list is the whole list. */
  lemma {:induction false} ProbeAllReachable(urls: seq<string>, probe: ProbeOracle)
    requires forall i :: 0 <= i < |urls| ==> CheckApiAccess(probe(urls[i]))
    ensures TestApiUrls(urls, probe).accessible == urls
    decreases |urls|
  {
    if urls != [] {
      assert forall i :: 0 <= i < |urls[1..]| ==> urls[1..][i] == urls[i + 1];
      ProbeAllReachable(urls[1..], probe);
      assert urls == [urls[0]] + urls[1..];
    }
  }
}

=== FILE: resolver.dfy ===
/**
 The provider loop of one query: try the reachable providers in order, each
 with its own retry budget, and stop at the first truthy result; then the
 present/absent branch of the display.
 */
module Resolver {
  import opened Net
  import opened Fetcher

  /** One query's result: the final value of `ip_data` and the fetch of every provider tried. */
  datatype Lookup = Lookup(data: Option<Body>, tried: seq<FetchRun>)

  /**
   The `for url in accessible_urls` loop entered with `ipData` as the current
   value of `ip_data`; `fetch` is the per-provider call. A falsy result (`None`,
   or `{}` from a 200) does not stop the loop, and `ip_data` keeps the last
   provider's value.
   */
  function ProviderLoop(fetch: string -> FetchRun, urls: seq<string>, ipData: Option<Body>): (r: Lookup)
    ensures |r.tried| <= |urls|
    ensures urls != [] ==> r.tried != [] && r.data == r.tried[|r.tried| - 1].data
    ensures urls == [] ==> r.tried == [] && r.data == ipData
    decreases |urls|
  {
    if urls == [] then Lookup(ipData, [])
    else
      var f := fetch(urls[0]);
      if Truthy(f.data) then Lookup(f.data, [f])
      else
        var rest := ProviderLoop(fetch, urls[1..], f.data);
        Lookup(rest.data, [f] + rest.tried)
  }

  /**
   The providers tried are a prefix of `urls`, in order, each given its own
   call; every one but the last gave a falsy result, and the loop stops before
   the end of the list only on a truthy one.
   */
  lemma {:induction false} ProviderLoopTriesInOrder(fetch: string -> FetchRun, urls: seq<string>, ipData: Option<Body>)
    ensures var r := ProviderLoop(fetch, urls, ipData);
      && (forall i :: 0 <= i < |r.tried| ==> r.tried[i] == fetch(urls[i]))
      && (forall i :: 0 <= i < |r.tried| - 1 ==> !Truthy(r.tried[i].data))
      && (|r.tried| < |urls| ==> Truthy(r.tried[|r.tried| - 1].data))
    decreases |urls|
  {
    if urls != [] {
      var f := fetch(urls[0]);
      if !Truthy(f.data) {
        ProviderLoopTriesInOrder(fetch, urls[1..], f.data);
        var rest := ProviderLoop(fetch, urls[1..], f.data);
        var tried := [f] + rest.tried;
        forall i | 1 <= i < |tried|
          ensures tried[i] == fetch(urls[i])
        {
          assert tried[i] == rest.tried[i - 1] && urls[i] == urls[1..][i - 1];
        }
        forall i | 1 <= i < |tried| - 1
          ensures !Truthy(tried[i].data)
        {
          assert tried[i] == rest.tried[i - 1];
        }
      }
    }
  }

  /** The loop ends on a truthy value exactly when some provider's call is truthy. */
  lemma ProviderLoopTruthy(fetch: string -> FetchRun, urls: seq<string>, ipData: Option<Body>)
    requires !Truthy(ipData)
    ensures (Truthy(ProviderLoop(fetch, urls, ipData).data)
             <==> exists i :: 0 <= i < |urls| && Truthy(fetch(urls[i]).data))
  {
    var r := ProviderLoop(fetch, urls, ipData);
    ProviderLoopTriesInOrder(fetch, urls, ipData);
    if Truthy(r.data) {
      var last := |r.tried| - 1;
      assert Truthy(fetch(urls[last]).data);
    } else if urls != [] {
      forall i | 0 <= i < |urls|
        ensures !Truthy(fetch(urls[i]).data)
      {
        assert r.tried[i] == fetch(urls[i]);
      }
    }
  }

  /** The per-provider call of one query: `fetch_ip_data` with a fresh budget for `url`. */
  function FetchFor(resp: Responder, ip: string): string -> FetchRun
  {
    url => FetchIpData(resp, url, ip)
  }

  /**
   The lines that fetch data for one IP, starting from `ip_data = None`. The
   answer is truthy exactly when some provider's own fetch is, every provider
   is tried when none is, and the empty list answers `None` with no request.
   */
  function QueryProviders(resp: Responder, urls: seq<string>, ip: string): (r: Lookup)
    ensures |r.tried| <= |urls|
    ensures forall i :: 0 <= i < |r.tried| ==> r.tried[i] == FetchIpData(resp, urls[i], ip)
    ensures Truthy(r.data) <==> exists i :: 0 <= i < |urls| && Truthy(FetchIpData(resp, urls[i], ip).data)
    ensures !Truthy(r.data) ==> |r.tried| == |urls|
    ensures urls == [] ==> r == Lookup(None, [])
  {
    ProviderLoopTriesInOrder(FetchFor(resp, ip), urls, None);
    ProviderLoopTruthy(FetchFor(resp, ip), urls, None);
    ProviderLoop(FetchFor(resp, ip), urls, None)
  }

  /** First success wins: the first provider with a truthy result is the answer and the last one tried. */
  lemma FirstTruthyWins(resp: Responder, urls: seq<string>, ip: string, k: nat)
    requires k < |urls|
    requires Truthy(FetchIpData(resp, urls[k], ip).data)
    requires forall i :: 0 <= i < k ==> !Truthy(FetchIpData(resp, urls[i], ip).data)
    ensures QueryProviders(resp, urls, ip).data == FetchIpData(resp, urls[k], ip).data
    ensures |QueryProviders(resp, urls, ip).tried| == k + 1
  {
    ProviderLoopTriesInOrder(FetchFor(resp, ip), urls, None);
  }

  /**
   When no provider yields a truthy result every provider is tried and the
   query's value is the last provider's own (falsy) value, not `None`.
   */
  lemma AllFalsyTriesEveryProvider(resp: Responder, urls: seq<string>, ip: string)
    requires urls != []
    requires forall i :: 0 <= i < |urls| ==> !Truthy(FetchIpData(resp, urls[i], ip).data)
    ensures |QueryProviders(resp, urls, ip).tried| == |urls|
    ensures QueryProviders(resp, urls, ip).data == FetchIpData(resp, urls[|urls| - 1], ip).data
  {
    ProviderLoopTriesInOrder(FetchFor(resp, ip), urls, None);
  }

  /** Every data request of a query, in the order issued. */
  function Requests(tried: seq<FetchRun>): seq<Request>
    decreases |tried|
  {
    if tried == [] then [] else tried[0].requests + Requests(tried[1..])
  }

  /** A request was issued by the query exactly when it was issued by one of the providers tried. */
  lemma {:induction false} RequestsMembership(tried: seq<FetchRun>, q: Request)
    ensures q in Requests(tried) <==> exists i :: 0 <= i < |tried| && q in tried[i].requests
    decreases |tried|
  {
    if tried != [] {
      RequestsMembership(tried[1..], q);
      if q in Requests(tried[1..]) {
        var i :| 0 <= i < |tried[1..]| && q in tried[1..][i].requests;
        assert tried[i + 1] == tried[1..][i];
      }
      if exists i :: 1 <= i < |tried| && q in tried[i].requests {
        var i :| 1 <= i < |tried| && q in tried[i].requests;
        assert tried[1..][i - 1] == tried[i];
      }
    }
  }

  /** With at most `bound` requests per provider, the query issues at most `bound` times as many in all. */
  lemma {:induction false} RequestsAtMost(tried: seq<FetchRun>, bound: nat)
    requires forall i :: 0 <= i < |tried| ==> |tried[i].requests| <= bound
    ensures |Requests(tried)| <= bound * |tried|
    decreases |tried|
  {
    if tried != [] {
      var rest := tried[1..];
      assert forall i :: 0 <= i < |rest| ==> rest[i] == tried[i + 1];
      RequestsAtMost(rest, bound);
      assert bound * |tried| == bound + bound * |rest|;
    }
  }

  /** With exactly `bound` requests per provider, the query issues exactly `bound` times as many in all. */
  lemma {:induction false} RequestsExactly(tried: seq<FetchRun>, bound: nat)
    requires forall i :: 0 <= i < |tried| ==> |tried[i].requests| == bound
    ensures |Requests(tried)| == bound * |tried|
    decreases |tried|
  {
    if tried != [] {
      var rest := tried[1..];
      assert forall i :: 0 <= i < |rest| ==> rest[i] == tried[i + 1];
      RequestsExactly(rest, bound);
      assert bound * |tried| == bound + bound * |rest|;
    }
  }

  /** The worst case: a query issues at most `MaxRetryAttempts` requests per reachable provider. */
  lemma QueryRequestBound(resp: Responder, urls: seq<string>, ip: string)
    ensures |Requests(QueryProviders(resp, urls, ip).tried)| <= MaxRetryAttempts * |urls|
  {
    var r := QueryProviders(resp, urls, ip);
    RequestsAtMost(r.tried, MaxRetryAttempts);
  }

  /** When every attempt on every provider fails, a query issues exactly `MaxRetryAttempts` per provider. */
  lemma AllFailingCostsFullBudget(resp: Responder, urls: seq<string>, ip: string)
    requires forall i, a :: 0 <= i < |urls| && 0 <= a < MaxRetryAttempts ==>
               !IsOk(resp(RequestTarget(urls[i], ip), a))
    ensures QueryProviders(resp, urls, ip).data == None
    ensures |Requests(QueryProviders(resp, urls, ip).tried)| == MaxRetryAttempts * |urls|
  {
    var r := QueryProviders(resp, urls, ip);
    forall i | 0 <= i < |urls|
      ensures FetchIpData(resp, urls[i], ip).data == None
      ensures |FetchIpData(resp, urls[i], ip).requests| == MaxRetryAttempts
    {
      FetchExhaustsBudget(resp, urls[i], ip);
    }
    RequestsExactly(r.tried, MaxRetryAttempts);
    if urls != [] {
      AllFalsyTriesEveryProvider(resp, urls, ip);
    }
  }

  /** Every data request of a query targets a reachable provider's base URL followed by the IP. */
  lemma RequestsTargetProviders(resp: Responder, urls: seq<string>, ip: string)
    ensures forall q :: q in Requests(QueryProviders(resp, urls, ip).tried) ==>
              exists u :: u in urls && q.target == RequestTarget(u, ip)
  {
    var r := QueryProviders(resp, urls, ip);
    forall q | q in Requests(r.tried)
      ensures exists u :: u in urls && q.target == RequestTarget(u, ip)
    {
      RequestsMembership(r.tried, q);
      var i :| 0 <= i < |r.tried| && q in r.tried[i].requests;
      assert urls[i] in urls;
    }
  }

  /**
   The fallback scenario: a first provider that never answers 200 spends its
   whole budget, then a second provider answering 200 with a non-empty body on
   its first attempt is the answer.
   */
  lemma FallbackToSecondProvider(resp: Responder, p1: string, p2: string, ip: string)
    requires forall a :: 0 <= a < MaxRetryAttempts ==> !IsOk(resp(RequestTarget(p1, ip), a))
    requires IsOk(resp(RequestTarget(p2, ip), 0)) && resp(RequestTarget(p2, ip), 0).body != map[]
    ensures QueryProviders(resp, [p1, p2], ip).data == Some(resp(RequestTarget(p2, ip), 0).body)
    ensures |QueryProviders(resp, [p1, p2], ip).tried| == 2
    ensures |QueryProviders(resp, [p1, p2], ip).tried[0].requests| == MaxRetryAttempts
    ensures |QueryProviders(resp, [p1, p2], ip).tried[1].requests| == 1
  {
    FetchExhaustsBudget(resp, p1, ip);
    FetchStopsAtFirstOk(resp, p2, ip, 0);
    FirstTruthyWins(resp, [p1, p2], ip, 1);
  }

  /** What `print_ip_data` shows: the fields of a truthy result, or the "no data" message. */
  datatype Report = Found(fields: Body) | NoDataFound

  function PrintIpData(values: Option<Body>): (rep: Report)
    ensures rep.Found? <==> Truthy(values)
    ensures rep.Found? ==> values == Some(rep.fields) && rep.fields != map[]
  {
    if Truthy(values) then Found(values.value) else NoDataFound
  }

  /** A query shows data exactly when some reachable provider produced a non-empty object. */
  lemma ReportShowsAnySuccess(resp: Responder, urls: seq<string>, ip: string)
    ensures (PrintIpData(QueryProviders(resp, urls, ip).data).Found?
             <==> exists i :: 0 <= i < |urls| && Truthy(FetchIpData(resp, urls[i], ip).data))
  {
  }
}

=== FILE: session.dfy ===
/**
 The body of `main` with the console and the network abstracted: probe the
 provider list once, stop if nothing is reachable, then handle input lines
 one at a time until an exit word or the end of the input.
 */
module Session {
  import opened Net
  import opened Prober
  import opened Fetcher
  import opened Resolver
  import opened Console

  /** What the user sees for one step of the session. */
  datatype Event = NoAccessibleUrls | InvalidInput | Shown(report: Report)

  /** Why the session ended. */
  datatype Ending = NoProviders | ExitCommand | InputExhausted

  /** The reaction to one input line: stop, or show something after issuing some data requests. */
  datatype Step = Stop | Answer(event: Event, requests: seq<Request>)

  /** The lines read after probing: what was shown, which data requests went out, how it ended. */
  datatype Dialogue = Dialogue(events: seq<Event>, requests: seq<Request>, ending: Ending)

  /** A whole run: the probes issued, the reachable list they gave, and the dialogue. */
  datatype Transcript = Transcript(probed: seq<string>, accessible: seq<string>, dialogue: Dialogue)

  /**
   One pass of the `while True` body. The exit word stops; a blank line is
   rejected without any request; anything else is one query, whose every
   request targets a reachable provider followed by the stripped line.
   */
  function HandleLine(resp: Responder, accessible: seq<string>, line: string): (s: Step)
    ensures s.Stop? <==> IsExitWord(Strip(line))
    ensures s.Answer? && AllSpace(line) ==> s == Answer(InvalidInput, [])
    ensures s.Answer? && !AllSpace(line) ==>
              && s.event == Shown(PrintIpData(QueryProviders(resp, accessible, Strip(line)).data))
              && s.requests == Requests(QueryProviders(resp, accessible, Strip(line)).tried)
              && forall q :: q in s.requests ==>
                   exists u :: u in accessible && q.target == RequestTarget(u, Strip(line))
    ensures s.Answer? ==> |s.requests| <= MaxRetryAttempts * |accessible|
  {
    match Classify(line)
    case Quit => Stop
    case Blank => Answer(InvalidInput, [])
    case Query(ip) =>
      var l := QueryProviders(resp, accessible, ip);
      RequestsTargetProviders(resp, accessible, ip);
      QueryRequestBound(resp, accessible, ip);
      Answer(Shown(PrintIpData(l.data)), Requests(l.tried))
  }

  /** The per-line reaction of a session whose reachable list is `accessible`. */
  function Handler(resp: Responder, accessible: seq<string>): string -> Step
  {
    line => HandleLine(resp, accessible, line)
  }

  /**
   The input loop over the remaining `lines`, `handle` reacting to each;
   running out of lines ends the dialogue.
   */
  function Serve(handle: string -> Step, lines: seq<string>): (d: Dialogue)
    ensures d.ending != NoProviders
    ensures |d.events| <= |lines|
    ensures d.ending == InputExhausted <==> forall i :: 0 <= i < |lines| ==> !handle(lines[i]).Stop?
    decreases |lines|
  {
    if lines == [] then Dialogue([], [], InputExhausted)
    else
      match handle(lines[0])
      case Stop => Dialogue([], [], ExitCommand)
      case Answer(e, qs) =>
        var rest := Serve(handle, lines[1..]);
        assert forall i :: 1 <= i < |lines| ==> lines[1..][i - 1] == lines[i];
        Dialogue([e] + rest.events, qs + rest.requests, rest.ending)
  }

  /**
   The first stopping line ends the session: the lines after it are never
   read, and every line before it produced exactly one event.
   */
  lemma {:induction false} StopIgnoresLaterLines(handle: string -> Step, lines: seq<string>, k: nat)
    requires k < |lines| && handle(lines[k]).Stop?
    requires forall i :: 0 <= i < k ==> !handle(lines[i]).Stop?
    ensures Serve(handle, lines) == Serve(handle, lines[..k + 1])
    ensures Serve(handle, lines).ending == ExitCommand
    ensures |Serve(handle, lines).events| == k
    decreases k
  {
    if k > 0 {
      assert lines[1..][k - 1] == lines[k];
      assert forall i :: 0 <= i < k - 1 ==> lines[1..][i] == lines[i + 1];
      StopIgnoresLaterLines(handle, lines[1..], k - 1);
      assert lines[..k + 1][1..] == lines[1..][..k];
      assert lines[..k + 1][0] == lines[0];
    }
  }

  /** Without a stopping line every line produces its own event, in order. */
  lemma {:induction false} EveryLineAnswered(handle: string -> Step, lines: seq<string>)
    requires forall i :: 0 <= i < |lines| ==> !handle(lines[i]).Stop?
    ensures |Serve(handle, lines).events| == |lines|
    ensures forall i :: 0 <= i < |lines| ==> Serve(handle, lines).events[i] == handle(lines[i]).event
    decreases |lines|
  {
    if lines != [] {
      assert forall i :: 1 <= i < |lines| ==> lines[1..][i - 1] == lines[i];
      EveryLineAnswered(handle, lines[1..]);
      var d := Serve(handle, lines);
      var rest := Serve(handle, lines[1..]);
      assert forall i :: 1 <= i < |lines| ==> d.events[i] == rest.events[i - 1];
    }
  }

  /** Without a stopping line, every request issued for any line goes out in the dialogue. */
  lemma {:induction false} LineRequestsInDialogue(handle: string -> Step, lines: seq<string>)
    requires forall i :: 0 <= i < |lines| ==> !handle(lines[i]).Stop?
    ensures forall j, q :: 0 <= j < |lines| && q in handle(lines[j]).requests ==> q in Serve(handle, lines).requests
    decreases |lines|
  {
    if lines != [] {
      assert forall i :: 1 <= i < |lines| ==> lines[1..][i - 1] == lines[i];
      LineRequestsInDialogue(handle, lines[1..]);
    }
  }

  /** Every request of a dialogue was issued while reacting to one of its lines. */
  lemma {:induction false} DialogueRequestsFromLines(handle: string -> Step, lines: seq<string>)
    ensures forall q :: q in Serve(handle, lines).requests ==>
              exists j :: 0 <= j < |lines| && handle(lines[j]).Answer? && q in handle(lines[j]).requests
    decreases |lines|
  {
    if lines != [] {
      var s := handle(lines[0]);
      if s.Answer? {
        DialogueRequestsFromLines(handle, lines[1..]);
        var rest := Serve(handle, lines[1..]);
        forall q | q in s.requests + rest.requests
          ensures exists j :: 0 <= j < |lines| && handle(lines[j]).Answer? && q in handle(lines[j]).requests
        {
          if q !in s.requests {
            var j :| 0 <= j < |lines[1..]| && handle(lines[1..][j]).Answer? && q in handle(lines[1..][j]).requests;
            assert lines[1..][j] == lines[j + 1];
          }
        }
      }
    }
  }

  /**
   `main`: probe the provider list `urls` once (`ApiUrls` in the program); with no reachable provider report it and
   end without reading input or sending any data request; otherwise serve
   the input lines against the reachable list.
   */
  function Run(urls: seq<string>, probe: ProbeOracle, resp: Responder, lines: seq<string>): (t: Transcript)
    ensures t.probed == urls
    ensures t.accessible == TestApiUrls(urls, probe).accessible
    ensures t.dialogue.ending != NoProviders ==> t.dialogue == Serve(Handler(resp, t.accessible), lines)
    ensures t.dialogue.ending == NoProviders <==> forall i :: 0 <= i < |urls| ==> !CheckApiAccess(probe(urls[i]))
    ensures t.dialogue.ending == NoProviders ==> t.dialogue == Dialogue([NoAccessibleUrls], [], NoProviders)
    ensures forall u :: u in t.accessible ==> u in urls && CheckApiAccess(probe(u))
  {
    var p := TestApiUrls(urls, probe);
    AccessibleMembership(urls, probe);
    if p.accessible == [] then
      Transcript(p.probed, [], Dialogue([NoAccessibleUrls], [], NoProviders))
    else
      assert p.accessible[0] in urls;
      Transcript(p.probed, p.accessible, Serve(Handler(resp, p.accessible), lines))
  }

  /**
   In a run, the first line that strips to a case-insensitive `exit` ends the
   session and no later line is read.
   */
  lemma ExitEndsSession(urls: seq<string>, probe: ProbeOracle, resp: Responder, lines: seq<string>, k: nat)
    requires TestApiUrls(urls, probe).accessible != []
    requires k < |lines| && Classify(lines[k]).Quit?
    requires forall i :: 0 <= i < k ==> !Classify(lines[i]).Quit?
    ensures Run(urls, probe, resp, lines) == Run(urls, probe, resp, lines[..k + 1])
    ensures Run(urls, probe, resp, lines).dialogue.ending == ExitCommand
    ensures |Run(urls, probe, resp, lines).dialogue.events| == k
  {
    var handle := Handler(resp, TestApiUrls(urls, probe).accessible);
    StopIgnoresLaterLines(handle, lines, k);
  }

  /**
   In a run without `exit`, every line gets exactly one event, in order: a
   whitespace-only line is rejected as invalid, and any other line shows the
   report of a query of its stripped text against the reachable list.
   */
  lemma BlankLinesRejected(urls: seq<string>, probe: ProbeOracle, resp: Responder, lines: seq<string>)
    requires TestApiUrls(urls, probe).accessible != []
    requires forall i :: 0 <= i < |lines| ==> !Classify(lines[i]).Quit?
    ensures |Run(urls, probe, resp, lines).dialogue.events| == |lines|
    ensures forall i :: 0 <= i < |lines| ==>
              (Run(urls, probe, resp, lines).dialogue.events[i] == InvalidInput <==> AllSpace(lines[i]))
    ensures forall i :: 0 <= i < |lines| && !AllSpace(lines[i]) ==>
              Run(urls, probe, resp, lines).dialogue.events[i]
              == Shown(PrintIpData(QueryProviders(resp, TestApiUrls(urls, probe).accessible, Strip(lines[i])).data))
    ensures Run(urls, probe, resp, lines).dialogue.ending == InputExhausted
  {
    var handle := Handler(resp, TestApiUrls(urls, probe).accessible);
    EveryLineAnswered(handle, lines);
  }

  /** A request issued while answering a line comes from a query line and targets a reachable provider. */
  lemma AnsweredRequestTarget(resp: Responder, accessible: seq<string>, line: string, q: Request)
    ensures var s := HandleLine(resp, accessible, line);
      s.Answer? && q in s.requests ==>
        Classify(line).Query? && exists u :: u in accessible && q.target == RequestTarget(u, Strip(line))
  {
  }

  /**
   Every data request of a run targets a reachable provider's base URL
   followed by the stripped text of one of the query lines.
   */
  lemma RunRequestTargets(urls: seq<string>, probe: ProbeOracle, resp: Responder, lines: seq<string>)
    ensures var t := Run(urls, probe, resp, lines);
      forall q :: q in t.dialogue.requests ==>
        exists u, j :: u in t.accessible && 0 <= j < |lines|
                       && Classify(lines[j]).Query? && q.target == RequestTarget(u, Strip(lines[j]))
  {
    var t := Run(urls, probe, resp, lines);
    if t.accessible != [] {
      var handle := Handler(resp, t.accessible);
      assert t.dialogue == Serve(handle, lines);
      DialogueRequestsFromLines(handle, lines);
      forall q | q in t.dialogue.requests
        ensures exists u, j :: u in t.accessible && 0 <= j < |lines|
                               && Classify(lines[j]).Query? && q.target == RequestTarget(u, Strip(lines[j]))
      {
        var j :| 0 <= j < |lines| && handle(lines[j]).Answer? && q in handle(lines[j]).requests;
        AnsweredRequestTarget(resp, t.accessible, lines[j], q);
      }
    }
  }

  /** One provider that always answers 500 spends three attempts and "No data found" is shown. */
  lemma AlwaysServerErrorShowsNoData(url: string, ip: string)
    ensures var resp: Responder := (target, attempt) => Response(500, map[]);
      && PrintIpData(QueryProviders(resp, [url], ip).data) == NoDataFound
      && |Requests(QueryProviders(resp, [url], ip).tried)| == MaxRetryAttempts
  {
    var resp: Responder := (target, attempt) => Response(500, map[]);
    AllFailingCostsFullBudget(resp, [url], ip);
  }

  /** One provider answering 200 with an `ip` and a `city` field: that object is shown after one request. */
  lemma FirstAnswerIsShown(url: string, ip: string)
    ensures var body := map["ip" := Str("8.8.8.8"), "city" := Str("Mountain View")];
      var resp: Responder := (target, attempt) => Response(200, body);
      && PrintIpData(QueryProviders(resp, [url], ip).data) == Found(body)
      && |Requests(QueryProviders(resp, [url], ip).tried)| == 1
  {
    var body := map["ip" := Str("8.8.8.8"), "city" := Str("Mountain View")];
    var resp: Responder := (target, attempt) => Response(200, body);
    FetchStopsAtFirstOk(resp, url, ip, 0);
    assert "ip" in body;
    FirstTruthyWins(resp, [url], ip, 0);
  }

  /**
   The ipgeolocation entry of the built-in list has no trailing slash, so the
   IP is glued onto the last path segment.
   */
  lemma IpgeoTargetHasNoSeparator()
    ensures ApiUrls[4] == "https://api.ipgeolocation.io/ipgeo"
    ensures RequestTarget(ApiUrls[4], "8.8.8.8") == "https://api.ipgeolocation.io/ipgeo8.8.8.8"
  {
  }
}
